=== FILE: README.md ===
# Chat server room history — a Dafny model

The chat backend stores every chat message. When a socket joins a room, or
when someone posts to a room, the server reads that room's history back and
sends it out. The history is grouped by the message's `date` string and
sorted by a date key. This project models that path in `server.js`:

- the aggregate in `getLastMessagesFromRoom`: `$match` on the room, `$group` by `date`, `$push` of whole messages;
- the comparator in `sortRoomMessagesByDate`: split the date on `/`, key = field 2 + field 0 + field 1, answer -1 when the key is lexicographically smaller and 1 otherwise;
- the socket handlers `new-user`, `join-room` and `message-room`, with room membership and the recipient sets of `io.emit`, `socket.emit`, `io.to(room)` and `socket.broadcast`.

Modules:

- `LexOrder` (lex_order.dfy): JavaScript's `<` on strings.
- `DateKey` (date_key.dfy): `split('/')` and the comparator's key.
- `Store` (store.dfy): the message log and the aggregate.
- `DateSort` (date_sort.dfy): the comparator and the sort.
- `History` (history.dfy): aggregate then sort, as both handlers call them.
- `Rooms` (rooms.dfy): socket room membership.
- `Relay` (relay.dfy): the three handlers and what each emits, to whom.

Design choices:

- **Sort.** `Array.prototype.sort` is modelled as an insertion sort that uses the comparator. It takes the buckets in input order and puts each one behind every bucket whose key is not above its own (`DateSort.InsertPosition`). `DateSort.AnySortedPermutationIsTheSort` shows the choice of algorithm does not matter when keys identify dates: every ascending reordering is the same sequence. Buckets that all share one key come out in input order (`DateSort.SameKeyKeepsOrder`, with the two-bucket case `DateSort.EqualKeysKeepOrder`). In a mixed input, a bucket whose key equals an earlier one's goes behind it, because insertion stops only at a strictly greater key (`DateSort.InsertPosition`).
- **Bucket order.** MongoDB does not fix the order in which `$group` returns buckets. `Store.GroupByDate` returns them in order of first message. When keys are distinct, the sorted history does not depend on that order (`History.HistoryIgnoresBucketOrder`). When dates share a key, it does. For a log of two messages whose dates collide, the sort keeps the two buckets in whatever order the aggregate returned (`History.CollidingDatesKeepGroupOrder`).
- **Store success or failure.** Whether `Message.create`, the aggregate and `User.find` succeed is a parameter (`Relay.StoreIO`). A failed call rejects the handler's promise: nothing after it runs, and anything done before it stays done. The model stops at that point; what the rejection does to the process is listed under "Left out".
- **Own-id room.** socket.io puts every socket, when it connects, into a room named by its own id (`Rooms.Connect`). Room names and socket ids are both strings, so `message-room` or `join-room` can name that room (`Relay.PostToOwnId`).

The key follows the code, not any reading of the date format:

- For a zero-padded date the key identifies the date (`DateKey.KeyRoundTrip`).
- For unpadded dates two different dates can share a key, e.g. "1/12/2024" and "11/2/2024" both give "2024112" (`DateKey.UnpaddedKeysCollide`).
- The key puts field 2, then field 0, then field 1. For zero-padded MM/DD/YYYY dates that is YYYYMMDD, so the order is calendar order. For DD/MM/YYYY dates it is not: "01/02/2024" (1 February) sorts before "05/01/2024" (5 January), because the keys are "20240102" and "20240501". `History.FirstFieldOrdersExample` proves this case.

## Model

| member | source | states |
|---|---|---|
| LexOrder.Less | server.js:44 | JavaScript `<` on strings. Its contract is given by `LexOrder.Irreflexive`, `Asymmetric`, `Transitive`, `Total` and `CommonPrefix`. |
| LexOrder.Irreflexive | server.js:44 | No key is below itself, so the comparator never answers -1 for a bucket against itself. |
| LexOrder.Asymmetric | server.js:44 | If one key is below another, the second is not below the first. |
| LexOrder.Transitive | server.js:44 | String order on keys is transitive. |
| LexOrder.Total | server.js:44 | Of two different keys, one is below the other. |
| LexOrder.CommonPrefix | server.js:40-44 | A shared leading year does not change how two keys compare. |
| DateKey.Split | server.js:36-37 | `split('/')` always yields at least one field. |
| DateKey.JoinSplit | server.js:36-37 | Joining the fields of `split('/')` with `/` gives back the original string. |
| DateKey.SplitNoSeparator | server.js:36-37 | No field of `split('/')` contains a `/`. |
| DateKey.SplitJoin | server.js:36-37 | Splitting fields joined with `/` gives back exactly those fields, when no field contains `/`, empty fields included. |
| DateKey.Key | server.js:36-42 | The comparator's key. Its contract is given by `DateKey.KeyOfThreeFields`, `KeyOfTwoFields`, `KeyOfOneField`, `KeyRoundTrip` and `UnpaddedKeysCollide`. |
| DateKey.KeyOfThreeFields | server.js:36-42 | A date of three fields a/b/c splits into [a, b, c] and has key c+a+b. |
| DateKey.KeyOfTwoFields | server.js:36-42 | In a date with only two fields, the missing third field reads "undefined" at the head of the key. |
| DateKey.KeyOfOneField | server.js:36-42 | A date without `/` has key "undefined" + date + "undefined". |
| DateKey.KeyRoundTrip | server.js:36-42 | A zero-padded date can be rebuilt from its eight-character key. |
| DateKey.KeyInjective | server.js:36-42 | Two different zero-padded dates never share a key. |
| DateKey.UnpaddedKeysCollide | server.js:36-42 | Two different unpadded dates share a key whenever their first two fields run together into the same text. |
| Store.Matching | server.js:28-29 | A message is in the reference bucket exactly when it is in the log, addressed to the room and carries that date. |
| Store.MatchingAppend | server.js:29 | `$push` keeps log order: a new message for the room and date is appended at the end of its bucket, and every other bucket is unchanged. |
| Store.Push | server.js:29 | One `$push`: the bucket ids gain the message's date, and a new bucket is opened only for a date not seen before. `Store.PushKeepsGrouping` states the rest. |
| Store.PushKeepsGrouping | server.js:29 | Adding one message of the room to a correct grouping of the earlier log gives a correct grouping of the longer log. |
| Store.GroupByDate | server.js:26-32 | Gives one bucket per distinct date of the room's messages. Each bucket holds exactly that date's messages in log order, and no bucket is empty. |
| Store.Placement | server.js:28-29 | Each message of the room is in exactly one bucket, the one for its date. Messages of other rooms are in none. |
| Store.EmptyRoom | server.js:26-32 | The aggregate is empty exactly when the room has no messages. |
| Store.GroupingsAgree | server.js:29 | Any two correct results of the aggregate hold the same buckets and differ at most in order. |
| DateSort.Compare | server.js:44 | The comparator answers -1 or 1, never 0. |
| DateSort.CompareDistinctKeys | server.js:35-44 | When keys differ, the comparator is antisymmetric, and it answers -1 exactly when the first key is lexicographically smaller. |
| DateSort.CompareEqualKeys | server.js:44 | When keys are equal, the comparator answers 1 in both directions. |
| DateSort.CompareTransitive | server.js:44 | If a comes before b and b before c, then a comes before c. |
| DateSort.Insert | server.js:35-45 | One insertion step of the sort adds exactly the one bucket to the buckets already sorted. |
| DateSort.InsertPosition | server.js:35-45 | The inserted bucket goes after every bucket whose key is not above its own and before every bucket whose key is. |
| DateSort.InsertAscending | server.js:35-45 | Inserting a bucket into an ascending sequence keeps it ascending. |
| DateSort.PermutationDistinctIds | server.js:35 | Reordering buckets keeps their ids distinct. |
| DateSort.SortByDate | server.js:34-46 | The sort result has the same buckets with the same counts, and no key is below an earlier key. |
| DateSort.SortStrict | server.js:34-46 | Sorting keeps ids distinct. When keys identify dates, the keys end up strictly ascending. |
| DateSort.EqualKeysKeepOrder | server.js:35-45 | Two buckets with equal keys come out in the order they went in. |
| DateSort.SameKeyKeepsOrder | server.js:35-45 | Any number of buckets that all share one key come out in the order they went in. |
| DateSort.StrictlyAscendingUnique | server.js:34-46 | Two strictly ascending sequences with the same buckets are equal. |
| DateSort.AnySortedPermutationIsTheSort | server.js:35-45 | Once keys identify dates, every ascending reordering of the buckets equals the modelled sort. |
| History.RoomHistory | server.js:59-60 | The history is a correct aggregate for the room, with keys ascending. |
| History.RoomHistoryEmpty | server.js:26-32 | The history is empty exactly when the room has no messages. |
| History.RoomHistoryStrict | server.js:34-46 | When different dates of the room have different keys, the history's keys strictly ascend. |
| History.PermutationIsGrouping | server.js:34-46 | Reordering a correct aggregate result gives another correct result. |
| History.PaddedDatesKeysDistinct | server.js:36-44 | When every message of a room has a zero-padded date, different dates have different keys. |
| History.HistoryIsTheSortedGrouping | server.js:26-46 | Any strictly ascending correct grouping of the room is exactly the history the handlers send. |
| History.HistoryIgnoresBucketOrder | server.js:26-46 | With distinct keys, sorting the aggregate's buckets gives the same history whatever order they came in. |
| History.HistoryPlacement | server.js:59-60 | Each message of the room is in exactly one bucket of the history, the one for its date. No message of another room is in any bucket. |
| History.AppendOtherRoom | server.js:66-74 | Storing a message for one room leaves every other room's history unchanged. |
| History.AppendShowsMessage | server.js:66-74 | After a message is stored, its room's history has the bucket for its date, with the earlier messages of that date followed by the new one. |
| History.TwoDays | server.js:34-46 | Two messages on days with different keys come back as two one-message buckets, smaller key first, whatever order they were stored in. |
| History.CollidingDatesKeepLogOrder | server.js:34-46 | Two messages on different dates that share a key come back as two buckets in the order they were stored, when the aggregate returns buckets in order of first message. |
| History.CollidingDatesKeepGroupOrder | server.js:26-46 | For two messages on different dates that share a key, every possible aggregate result is the two one-message buckets in one order or the other, and the sort returns that order unchanged. |
| History.SameYearKeys | server.js:40-44 | For two three-field dates in the same year, the key order is the order of their first two fields read together. |
| History.TwoDaysExample | server.js:34-46 | Messages dated "01/01/2024" and "02/01/2024" come back in that order. |
| History.FirstFieldOrdersExample | server.js:34-46 | "01/02/2024" is listed before "05/01/2024", even when it was stored after it. |
| Rooms.Connect | server.js:50 | A socket that has just connected is in exactly one room, the one named by its own id. Other sockets keep their rooms. |
| Rooms.ConnectOwnRoom | server.js:50 | Connecting adds the new socket to the fan-out of the room named by its id, and to no other socket's. |
| Rooms.Join | server.js:57 | `socket.join` adds the room to the caller's rooms and changes nothing else. |
| Rooms.Leave | server.js:58 | `socket.leave` removes the room from the caller's rooms and changes nothing else. |
| Rooms.JoinRoom | server.js:57-58 | Only the caller's rooms change. The caller ends in `newRoom` exactly when it differs from `previousRoom`, is never in `previousRoom`, and keeps every other room. |
| Rooms.LeaveAbsent | server.js:58 | Leaving a room the socket is not in changes nothing. |
| Rooms.SwitchKeepsOneRoom | server.js:50-58 | A socket whose only joined room, besides its own-id room, is `previousRoom` switches to a different room that is not its own id. Afterwards its own-id room is as before, and the new room is its only other room. So a connected socket ends in exactly its own-id room and the new room. |
| Rooms.RejoinLeavesRoom | server.js:57-58 | Joining the room named as the previous one leaves the socket outside that room. |
| Rooms.RoomMembers | server.js:76 | `io.to(room)` reaches only connected sockets. `Rooms.JoinRoomFanOut` and `Relay.MessageFanOut` state exactly which ones. |
| Rooms.Others | server.js:77 | `socket.broadcast` reaches every connected socket but the sender, one fewer than all. |
| Rooms.JoinRoomFanOut | server.js:57-58 | After `join-room` the caller is out of the previous room's fan-out, and in the new room's when the two differ. Every other room's fan-out is unchanged. |
| Rooms.SwitchChangesFanOut | server.js:57-58 | After switching rooms, the socket is reached by the new room's fan-out and not by the old room's. |
| Relay.OnNewUser | server.js:51-54 | When the read succeeds, the user list goes to every connected socket, the caller included. When it fails, nothing is sent. The state is unchanged. |
| Relay.OnJoinRoom | server.js:56-62 | The membership change stands even when the read fails. When the read succeeds, the caller alone gets the new room's sorted history, a correct aggregate. |
| Relay.OnMessageRoom | server.js:64-78 | A failed write changes and sends nothing. After a successful write the message is appended to the log. After a successful read, the room's sockets get the history including the new message, and every socket but the sender gets a notification. |
| Relay.Handle | server.js:50-78 | No event connects or disconnects a socket. |
| Relay.SnapshotsConsistent | server.js:56-78 | Every history any handler sends is a complete, ascending aggregate of the log as it stands after the event. |
| Relay.MessageFanOut | server.js:76-77 | A socket gets the history exactly when it is in the room. It gets the notification exactly when it is connected and is not the sender. |
| Relay.MessageDelivered | server.js:66-76 | The history sent after a message holds that message, last in the bucket of its date. |
| Relay.UnjoinedGetsNoHistory | server.js:56-78 | A socket in no room but the one named by its id never receives a history another socket's event sends, unless that event posts to its id. |
| Relay.PostToOwnId | server.js:64-76 | A socket still in the room named by its id that posts to that id gets the history back. |
| Relay.HistoryGoesToRoom | server.js:73-76 | The only history `message-room` sends goes to the room's sockets. |
| Relay.SwitchedSocketMissesOldRoom | server.js:56-78 | A socket that switched from room a to room b does not receive a's history when another socket then posts to a, whether or not the read of its own switch succeeded. |

## Left out

- Express setup, CORS, the `/users` router, `GET /rooms` and `server.listen` (server.js:1-24, 97-109): wiring outside the room-history core.
- `DELETE /logout` (server.js:80-94): user status bookkeeping, outside the room-history core.
- MongoDB itself: the database is modelled as an in-memory log. The `Message` and `User` schemas are not part of this model. Message fields are taken from the `Message.create` call at server.js:66-72. Database-generated fields such as `_id` and timestamps are not modelled.
- The socket.io transport, disconnection, delivery order and concurrency: each event is handled atomically, as if no other event ran in between. Interleaving of the `await`s across sockets is not modelled.
- `console.log` (server.js:65): it only writes to the console.
- LexOrder.Less: compares Dafny characters (Unicode scalar values). JavaScript compares UTF-16 code units, so the two orders differ only for characters outside the Basic Multilingual Plane.
- Relay.Member: the user record is passed through untouched. Its fields are whatever `User.find` returns.
- Rooms.JoinRoom: it trusts the client's `previousRoom`, as the code does. socket.io puts every socket in the room named by its own id when it connects (`Rooms.Connect`). `socket.leave` removes it from that room if the client passes its own id as `previousRoom`. So "at most one room" has to count the own-id room too. Nothing enforces that a socket has at most one room besides its own-id room; `Rooms.SwitchKeepsOneRoom` states when that holds.
- History.CollidingDatesKeepLogOrder: it rests on `Store.GroupByDate` returning buckets in order of first message, which MongoDB does not promise. For colliding dates the history follows the aggregate's order; `History.CollidingDatesKeepGroupOrder` states that for every aggregate result.
- Store.GroupByDate: it states the buckets, not their order, because MongoDB leaves `$group` output order unspecified.
- Store.Matching: it keeps each bucket in log order. `$match` without `$sort` returns MongoDB's natural order, which is not guaranteed to be insertion order. `Store.MatchingAppend`, `History.AppendShowsMessage` and `Relay.MessageDelivered` ("last in its bucket") rest on this choice.
- DateSort.SortByDate: when two buckets share a key, the comparator answers 1 both ways. It is then not a consistent comparator, and ECMAScript leaves the result order implementation-defined. The model keeps input order, as a stable sort such as V8's does with this comparator. Only buckets with distinct keys have an order every engine must produce (`DateSort.AnySortedPermutationIsTheSort`).
- Relay.OnMessageRoom, Relay.OnJoinRoom, Relay.OnNewUser: no socket listener catches a rejected promise (server.js:51-78; only `/logout` at server.js:81-93 has a `try`). A failed `Message.create`, aggregate or `User.find` is therefore an unhandled rejection, and Node.js 15 and later ends the process on one by default. The model instead ends only that handler and keeps the server with its registry and log.
- Store.Message: `date` is always a string here. A stored message without a `date` gives a `$group` bucket whose `_id` is `null`, and `a._id.split('/')` (server.js:36-37) then throws. After that, sorting that room's history fails on every later `join-room` or `message-room` once the room has two buckets. The model does not cover that failure.

=== FILE: date_key.dfy ===
/** The sort key the history comparator builds from a group's date string:
    `date.split('/')`, then fields 2, 0 and 1 concatenated. A field the
    split does not produce is `undefined` in JavaScript, and string
    concatenation turns it into the text "undefined". */
module DateKey {

  const Separator: char := '/'
  const Undefined: string := "undefined"

  /** `s.split('/')`: the pieces between separators, empty pieces kept. */
  function Split(s: string): (fields: seq<string>)
    ensures |fields| >= 1
  {
    if |s| == 0 then [""]
    else
      var rest := Split(s[1..]);
      if s[0] == Separator then [""] + rest
      else [[s[0]] + rest[0]] + rest[1..]
  }

  /** `fields.join('/')`, the inverse of `Split`. */
  function Join(fields: seq<string>): string
    requires |fields| >= 1
  {
    if |fields| == 1 then fields[0]
    else fields[0] + [Separator] + Join(fields[1..])
  }

  predicate NoSeparator(fields: seq<string>) {
    forall i :: 0 <= i < |fields| ==> Separator !in fields[i]
  }

  lemma {:induction false} JoinSplit(s: string)
    ensures Join(Split(s)) == s
    decreases |s|
  {
    if |s| > 0 {
      JoinSplit(s[1..]);
      var rest := Split(s[1..]);
      if s[0] != Separator {
        var fields := Split(s);
        assert fields[0] == [s[0]] + rest[0];
        if |rest| > 1 {
          assert fields[1..] == rest[1..];
        }
      }
    }
  }

  /** No field of a split holds the separator. */
  lemma {:induction false} SplitNoSeparator(s: string)
    ensures NoSeparator(Split(s))
    decreases |s|
  {
    if |s| > 0 {
      SplitNoSeparator(s[1..]);
      var rest := Split(s[1..]);
      if s[0] != Separator {
        var fields := Split(s);
        assert fields[0] == [s[0]] + rest[0];
        forall i | 1 <= i < |fields|
          ensures fields[i] == rest[i]
        {
        }
      }
    }
  }

  lemma {:induction false} SplitField(f: string)
    requires Separator !in f
    ensures Split(f) == [f]
    decreases |f|
  {
    if |f| > 0 {
      SplitField(f[1..]);
      assert [f[0]] + f[1..] == f;
    }
  }

  lemma {:induction false} SplitCons(f: string, t: string)
    requires Separator !in f
    ensures Split(f + [Separator] + t) == [f] + Split(t)
    decreases |f|
  {
    var s := f + [Separator] + t;
    if |f| == 0 {
      assert s[1..] == t;
    } else {
      assert s[1..] == f[1..] + [Separator] + t;
      SplitCons(f[1..], t);
      assert [f[0]] + f[1..] == f;
    }
  }

  lemma {:induction false} SplitJoin(fields: seq<string>)
    requires |fields| >= 1 && NoSeparator(fields)
    ensures Split(Join(fields)) == fields
    decreases |fields|
  {
    if |fields| == 1 {
      SplitField(fields[0]);
    } else {
      SplitJoin(fields[1..]);
      SplitCons(fields[0], Join(fields[1..]));
    }
  }

  /** `parts[i]` as JavaScript concatenation sees it. */
  function Field(fields: seq<string>, i: nat): string {
    if i < |fields| then fields[i] else Undefined
  }

  /** The comparator's key for a group whose `_id` is `date`. */
  function Key(date: string): string {
    var parts := Split(date);
    Field(parts, 2) + Field(parts, 0) + Field(parts, 1)
  }

  lemma JoinThree(d0: string, d1: string, d2: string)
    ensures Join([d0, d1, d2]) == d0 + [Separator] + d1 + [Separator] + d2
  {
    var fields := [d0, d1, d2];
    assert fields[1..] == [d1, d2];
    assert fields[1..][1..] == [d2];
    assert Join([d1, d2]) == d1 + [Separator] + d2;
    assert d0 + [Separator] + (d1 + [Separator] + d2) == d0 + [Separator] + d1 + [Separator] + d2;
  }

  /** For a date of exactly three fields the key is the third, then the
      first, then the second field. */
  lemma KeyOfThreeFields(date: string, d0: string, d1: string, d2: string)
    requires Separator !in d0 && Separator !in d1 && Separator !in d2
    requires date == d0 + [Separator] + d1 + [Separator] + d2
    ensures Split(date) == [d0, d1, d2]
    ensures Key(date) == d2 + d0 + d1
  {
    var fields := [d0, d1, d2];
    assert NoSeparator(fields);
    JoinThree(d0, d1, d2);
    SplitJoin(fields);
  }

  /** With only two fields the missing third one reads "undefined". */
  lemma KeyOfTwoFields(d0: string, d1: string)
    requires Separator !in d0 && Separator !in d1
    ensures Key(d0 + [Separator] + d1) == Undefined + d0 + d1
  {
    var fields := [d0, d1];
    assert NoSeparator(fields);
    assert fields[1..] == [d1];
    SplitJoin(fields);
  }

  /** A string without any separator is wrapped in "undefined" on both sides. */
  lemma KeyOfOneField(d0: string)
    requires Separator !in d0
    ensures Key(d0) == Undefined + d0 + Undefined
  {
    SplitField(d0);
  }

  /** Zero-padded dates: three fields of two, two and four characters. */
  predicate PaddedDate(date: string) {
    var parts := Split(date);
    |parts| == 3 && |parts[0]| == 2 && |parts[1]| == 2 && |parts[2]| == 4
  }

  /** Rebuilds a padded date from its eight-character key. */
  function DateOfKey(key: string): string
    requires |key| == 8
  {
    key[4..6] + [Separator] + key[6..8] + [Separator] + key[..4]
  }

  /** On padded dates the key loses nothing: the date can be read back. */
  lemma {:induction false} KeyRoundTrip(date: string)
    requires PaddedDate(date)
    ensures |Key(date)| == 8 && DateOfKey(Key(date)) == date
  {
    var p := Split(date);
    JoinSplit(date);
    assert p == [p[0], p[1], p[2]];
    JoinThree(p[0], p[1], p[2]);
    assert date == p[0] + [Separator] + p[1] + [Separator] + p[2];
    var k := Key(date);
    assert k == p[2] + p[0] + p[1];
    assert k[..4] == p[2];
    assert k[4..6] == p[0];
    assert k[6..8] == p[1];
  }

  /** Hence two different padded dates never share a key. */
  lemma KeyInjective(a: string, b: string)
    requires PaddedDate(a) && PaddedDate(b) && a != b
    ensures Key(a) != Key(b)
  {
    KeyRoundTrip(a);
    KeyRoundTrip(b);
  }

  /** Without padding two different dates can share a key: "1/12/2024"
      and "11/2/2024" both give "2024112". */
  lemma UnpaddedKeysCollide(a: string, b: string, d0: string, d1: string, e0: string, e1: string, year: string)
    requires Separator !in d0 && Separator !in d1 && Separator !in year
    requires Separator !in e0 && Separator !in e1
    requires d0 + d1 == e0 + e1 && d0 != e0
    requires a == d0 + [Separator] + d1 + [Separator] + year
    requires b == e0 + [Separator] + e1 + [Separator] + year
    ensures a != b && Key(a) == Key(b)
  {
    KeyOfThreeFields(a, d0, d1, year);
    KeyOfThreeFields(b, e0, e1, year);
    assert Split(a)[0] != Split(b)[0];
    assert year + d0 + d1 == year + (d0 + d1) == year + (e0 + e1) == year + e0 + e1;
  }
}

=== FILE: date_sort.dfy ===
/** `sortRoomMessagesByDate`: the buckets sorted with a comparator that
    answers -1 when the first bucket's date key is lexicographically smaller
    and 1 otherwise. `Array.prototype.sort` is modelled by an insertion
    sort driven by that comparator; `AnySortedPermutationIsTheSort` shows
    that, once keys are distinct, every sort that returns an ascending
    permutation returns the same sequence. */
module DateSort {
  import opened Store
  import DateKey
  import LexOrder

  function SortKey(g: Group): string {
    DateKey.Key(g.id)
  }

  /** The comparator handed to `messages.sort`. */
  function Compare(a: Group, b: Group): (r: int)
    ensures r == -1 || r == 1
  {
    if LexOrder.Less(SortKey(a), SortKey(b)) then -1 else 1
  }

  /** On distinct keys the comparator is antisymmetric and agrees with the
      key order in both directions. */
  lemma CompareDistinctKeys(a: Group, b: Group)
    requires SortKey(a) != SortKey(b)
    ensures Compare(a, b) == -Compare(b, a)
    ensures Compare(a, b) == -1 <==> LexOrder.Less(SortKey(a), SortKey(b))
    ensures Compare(a, b) == 1 <==> LexOrder.Less(SortKey(b), SortKey(a))
  {
    LexOrder.Total(SortKey(a), SortKey(b));
    LexOrder.Asymmetric(SortKey(a), SortKey(b));
  }

  /** On equal keys it answers 1 both ways: it never reports a tie. */
  lemma CompareEqualKeys(a: Group, b: Group)
    requires SortKey(a) == SortKey(b)
    ensures Compare(a, b) == 1 && Compare(b, a) == 1
  {
    LexOrder.Irreflexive(SortKey(a));
  }

  lemma CompareTransitive(a: Group, b: Group, c: Group)
    requires Compare(a, b) == -1 && Compare(b, c) == -1
    ensures Compare(a, c) == -1
  {
    LexOrder.Transitive(SortKey(a), SortKey(b), SortKey(c));
  }

  /** No bucket's key is smaller than an earlier bucket's key. */
  predicate Ascending(s: seq<Group>) {
    forall i, j :: 0 <= i < j < |s| ==> !LexOrder.Less(SortKey(s[j]), SortKey(s[i]))
  }

  predicate StrictlyAscending(s: seq<Group>) {
    forall i, j :: 0 <= i < j < |s| ==> LexOrder.Less(SortKey(s[i]), SortKey(s[j]))
  }

  /** Among the buckets of `s`, a key names a single date. */
  predicate KeysIdentify(s: seq<Group>) {
    forall x, y :: x in s && y in s && SortKey(x) == SortKey(y) ==> x.id == y.id
  }

  lemma PairAscending(x: Group, y: Group)
    requires LexOrder.Less(SortKey(x), SortKey(y))
    ensures StrictlyAscending([x, y])
  {
  }

  /** Inserts `g` before the first bucket the comparator puts after it. */
  function Insert(g: Group, sorted: seq<Group>): (r: seq<Group>)
    ensures multiset(r) == multiset(sorted) + multiset{g}
  {
    if |sorted| == 0 then [g]
    else if Compare(g, sorted[0]) < 0 then [g] + sorted
    else
      assert sorted == [sorted[0]] + sorted[1..];
      [sorted[0]] + Insert(g, sorted[1..])
  }

  /** A bucket whose key no later bucket undercuts extends an ascending
      sequence at the front. */
  lemma ConsAscending(h: Group, rest: seq<Group>)
    requires Ascending(rest)
    requires forall x :: x in rest ==> !LexOrder.Less(SortKey(x), SortKey(h))
    ensures Ascending([h] + rest)
  {
    var s := [h] + rest;
    forall i, j | 0 <= i < j < |s|
      ensures !LexOrder.Less(SortKey(s[j]), SortKey(s[i]))
    {
      assert s[j] == rest[j - 1];
      if i == 0 {
        assert rest[j - 1] in rest;
      } else {
        assert s[i] == rest[i - 1];
        assert !LexOrder.Less(SortKey(rest[j - 1]), SortKey(rest[i - 1]));
      }
    }
  }

  lemma {:induction false} InsertAscending(g: Group, sorted: seq<Group>)
    requires Ascending(sorted)
    ensures Ascending(Insert(g, sorted))
    decreases |sorted|
  {
    if |sorted| == 0 {
    } else if Compare(g, sorted[0]) < 0 {
      LexOrder.Irreflexive(SortKey(sorted[0]));
      forall x | x in sorted
        ensures !LexOrder.Less(SortKey(x), SortKey(g))
      {
        var j :| 0 <= j < |sorted| && sorted[j] == x;
        assert !LexOrder.Less(SortKey(x), SortKey(sorted[0]));
        LexOrder.Transitive(SortKey(x), SortKey(g), SortKey(sorted[0]));
      }
      ConsAscending(g, sorted);
    } else {
      var rest := Insert(g, sorted[1..]);
      InsertAscending(g, sorted[1..]);
      forall x | x in rest
        ensures !LexOrder.Less(SortKey(x), SortKey(sorted[0]))
      {
        assert x in multiset(rest);
        if x != g {
          TailMembers(sorted, x);
        }
      }
      ConsAscending(sorted[0], rest);
    }
  }

  /** Every bucket of `s` after position 0 sits at a later index. */
  lemma TailMembers(s: seq<Group>, h: Group)
    requires |s| > 0 && h in s[1..]
    ensures exists k :: 1 <= k < |s| && s[k] == h
  {
    var k :| 0 <= k < |s[1..]| && s[1..][k] == h;
    assert s[k + 1] == h;
  }

  /** A bucket whose id no later bucket shares extends distinct ids at the
      front. */
  lemma ConsDistinctIds(h: Group, rest: seq<Group>)
    requires DistinctIds(rest) && forall x :: x in rest ==> x.id != h.id
    ensures DistinctIds([h] + rest)
  {
    var s := [h] + rest;
    forall i, j | 0 <= i < j < |s|
      ensures s[i].id != s[j].id
    {
      assert s[j] == rest[j - 1];
      if i == 0 {
        assert rest[j - 1] in rest;
      } else {
        assert s[i] == rest[i - 1];
      }
    }
  }

  /** Dropping the bucket at index `k` keeps the ids distinct, and what is
      left sits at indices other than `k`. */
  lemma RemoveAt(a: seq<Group>, k: nat)
    requires k < |a| && DistinctIds(a)
    ensures DistinctIds(a[..k] + a[k + 1..])
    ensures forall x :: x in a[..k] + a[k + 1..] ==> x.id != a[k].id
  {
    var a' := a[..k] + a[k + 1..];
    forall i | 0 <= i < |a'|
      ensures a'[i] == a[if i < k then i else i + 1]
    {
    }
    forall i, j | 0 <= i < j < |a'|
      ensures a'[i].id != a'[j].id
    {
      var i' := if i < k then i else i + 1;
      var j' := if j < k then j else j + 1;
      assert a'[i] == a[i'] && a'[j] == a[j'];
    }
    forall x | x in a'
      ensures x.id != a[k].id
    {
      var i :| 0 <= i < |a'| && a'[i] == x;
      var i' := if i < k then i else i + 1;
      assert a[i'] == x;
    }
  }

  lemma MultisetRemove(a: seq<Group>, k: nat)
    requires k < |a|
    ensures multiset(a[..k] + a[k + 1..]) == multiset(a) - multiset{a[k]}
  {
    assert a == a[..k] + [a[k]] + a[k + 1..];
  }

  /** The head of `b` has a copy in any reordering `a` of `b`; removing it
      from both leaves two reorderings of each other. */
  lemma MatchHead(a: seq<Group>, b: seq<Group>) returns (k: nat)
    requires multiset(a) == multiset(b) && |b| > 0
    ensures k < |a| && a[k] == b[0]
    ensures multiset(a[..k] + a[k + 1..]) == multiset(b[1..])
  {
    assert b == [b[0]] + b[1..];
    assert multiset(b) == multiset{b[0]} + multiset(b[1..]);
    assert b[0] in a by {
      assert b[0] in multiset(a);
    }
    k :| 0 <= k < |a| && a[k] == b[0];
    MultisetRemove(a, k);
  }

  /** Matching the head of `b` against its copy in `a` leaves a smaller
      pair of reorderings, with the head's id absent from what is left. */
  lemma PermutationStep(a: seq<Group>, b: seq<Group>) returns (a': seq<Group>)
    requires multiset(a) == multiset(b) && DistinctIds(a) && |b| > 0
    ensures multiset(a') == multiset(b[1..]) && DistinctIds(a')
    ensures forall x :: x in a' ==> x.id != b[0].id
  {
    var k := MatchHead(a, b);
    a' := a[..k] + a[k + 1..];
    RemoveAt(a, k);
  }

  /** Reordering keeps the bucket ids distinct. */
  lemma {:induction false} PermutationDistinctIds(a: seq<Group>, b: seq<Group>)
    requires multiset(a) == multiset(b) && DistinctIds(a)
    ensures DistinctIds(b)
    decreases |b|
  {
    if |b| > 0 {
      var a' := PermutationStep(a, b);
      PermutationDistinctIds(a', b[1..]);
      forall x | x in b[1..]
        ensures x.id != b[0].id
      {
        assert x in multiset(a');
      }
      assert b == [b[0]] + b[1..];
      ConsDistinctIds(b[0], b[1..]);
    }
  }

  /** Distinct ids plus keys that identify dates give strictly ascending
      keys once the order is ascending. */
  lemma AscendingIsStrict(s: seq<Group>)
    requires Ascending(s) && DistinctIds(s) && KeysIdentify(s)
    ensures StrictlyAscending(s)
  {
    forall i, j | 0 <= i < j < |s|
      ensures LexOrder.Less(SortKey(s[i]), SortKey(s[j]))
    {
      assert s[i] in s && s[j] in s;
      LexOrder.Total(SortKey(s[i]), SortKey(s[j]));
    }
  }

  /** `messages.sort(comparator)` for the buckets of one room: a
      reordering of the buckets, ascending by key. Each bucket is inserted
      in input order behind every bucket whose key is not above its own, so
      buckets with equal keys keep their input order, as a stable sort does
      with this comparator. */
  function SortByDate(groups: seq<Group>): (r: seq<Group>)
    ensures multiset(r) == multiset(groups)
    ensures Ascending(r)
  {
    if |groups| == 0 then []
    else
      var last := groups[|groups| - 1];
      var rest := SortByDate(groups[..|groups| - 1]);
      assert groups == groups[..|groups| - 1] + [last];
      InsertAscending(last, rest);
      Insert(last, rest)
  }

  /** Where `Insert` puts a bucket: after every bucket whose key is not
      above its own, before every bucket whose key is. */
  lemma {:induction false} InsertPosition(g: Group, sorted: seq<Group>) returns (k: nat)
    requires Ascending(sorted)
    ensures k <= |sorted| && Insert(g, sorted) == sorted[..k] + [g] + sorted[k..]
    ensures forall i :: 0 <= i < k ==> !LexOrder.Less(SortKey(g), SortKey(sorted[i]))
    ensures forall i :: k <= i < |sorted| ==> LexOrder.Less(SortKey(g), SortKey(sorted[i]))
    decreases |sorted|
  {
    if |sorted| == 0 {
      k := 0;
    } else if Compare(g, sorted[0]) < 0 {
      k := 0;
      BelowFirst(g, sorted);
    } else {
      var tail := sorted[1..];
      TailAscending(sorted);
      var k' := InsertPosition(g, tail);
      k := k' + 1;
      ShiftPosition(g, sorted, k');
    }
  }

  /** A key below the first key of an ascending sequence is below all of
      them. */
  lemma BelowFirst(g: Group, sorted: seq<Group>)
    requires Ascending(sorted) && |sorted| > 0 && LexOrder.Less(SortKey(g), SortKey(sorted[0]))
    ensures forall i :: 0 <= i < |sorted| ==> LexOrder.Less(SortKey(g), SortKey(sorted[i]))
  {
    forall i | 0 <= i < |sorted|
      ensures LexOrder.Less(SortKey(g), SortKey(sorted[i]))
    {
      LexOrder.Total(SortKey(sorted[0]), SortKey(sorted[i]));
      LexOrder.Transitive(SortKey(g), SortKey(sorted[0]), SortKey(sorted[i]));
    }
  }

  lemma TailAscending(sorted: seq<Group>)
    requires Ascending(sorted) && |sorted| > 0
    ensures Ascending(sorted[1..])
  {
    var tail := sorted[1..];
    forall i, j | 0 <= i < j < |tail|
      ensures !LexOrder.Less(SortKey(tail[j]), SortKey(tail[i]))
    {
      assert tail[i] == sorted[i + 1] && tail[j] == sorted[j + 1];
    }
  }

  /** Splitting the tail at `k` and putting the head back in front splits
      the whole sequence at `k + 1`. */
  lemma SplitAfterHead(s: seq<Group>, g: Group, k: nat)
    requires k < |s|
    ensures [s[0]] + (s[1..][..k] + [g] + s[1..][k..]) == s[..k + 1] + [g] + s[k + 1..]
  {
    assert s[..k + 1] == [s[0]] + s[1..][..k];
    assert s[k + 1..] == s[1..][k..];
  }

  lemma InsertStep(g: Group, sorted: seq<Group>)
    requires |sorted| > 0 && Compare(g, sorted[0]) >= 0
    ensures Insert(g, sorted) == [sorted[0]] + Insert(g, sorted[1..])
  {
  }

  /** The insertion position in the tail, moved one place right, is the
      insertion position in the whole sequence. */
  lemma ShiftPosition(g: Group, sorted: seq<Group>, k': nat)
    requires |sorted| > 0 && Compare(g, sorted[0]) >= 0
    requires k' <= |sorted| - 1 && Insert(g, sorted[1..]) == sorted[1..][..k'] + [g] + sorted[1..][k'..]
    requires forall i :: 0 <= i < k' ==> !LexOrder.Less(SortKey(g), SortKey(sorted[1..][i]))
    requires forall i :: k' <= i < |sorted| - 1 ==> LexOrder.Less(SortKey(g), SortKey(sorted[1..][i]))
    ensures Insert(g, sorted) == sorted[..k' + 1] + [g] + sorted[k' + 1..]
    ensures forall i :: 0 <= i < k' + 1 ==> !LexOrder.Less(SortKey(g), SortKey(sorted[i]))
    ensures forall i :: k' + 1 <= i < |sorted| ==> LexOrder.Less(SortKey(g), SortKey(sorted[i]))
  {
    InsertStep(g, sorted);
    SplitAfterHead(sorted, g, k');
    ShiftNotAbove(g, sorted, k');
    ShiftAbove(g, sorted, k');
  }

  /** The head is not above `g`, so neither is anything before `k' + 1`. */
  lemma ShiftNotAbove(g: Group, sorted: seq<Group>, k': nat)
    requires |sorted| > 0 && !LexOrder.Less(SortKey(g), SortKey(sorted[0]))
    requires k' <= |sorted| - 1
    requires forall i :: 0 <= i < k' ==> !LexOrder.Less(SortKey(g), SortKey(sorted[1..][i]))
    ensures forall i :: 0 <= i < k' + 1 ==> !LexOrder.Less(SortKey(g), SortKey(sorted[i]))
  {
    forall i | 0 < i < k' + 1
      ensures !LexOrder.Less(SortKey(g), SortKey(sorted[i]))
    {
      assert sorted[i] == sorted[1..][i - 1];
    }
  }

  lemma ShiftAbove(g: Group, sorted: seq<Group>, k': nat)
    requires |sorted| > 0 && k' <= |sorted| - 1
    requires forall i :: k' <= i < |sorted| - 1 ==> LexOrder.Less(SortKey(g), SortKey(sorted[1..][i]))
    ensures forall i :: k' + 1 <= i < |sorted| ==> LexOrder.Less(SortKey(g), SortKey(sorted[i]))
  {
    forall i | k' + 1 <= i < |sorted|
      ensures LexOrder.Less(SortKey(g), SortKey(sorted[i]))
    {
      assert sorted[i] == sorted[1..][i - 1];
    }
  }

  /** Two buckets with equal keys come out of the sort in the order they
      went in. */
  lemma EqualKeysKeepOrder(a: Group, b: Group)
    requires SortKey(a) == SortKey(b)
    ensures SortByDate([a, b]) == [a, b]
  {
    assert [a, b][..1] == [a];
    assert [a][..0] == [];
    LexOrder.Irreflexive(SortKey(a));
  }

  /** Buckets that all share one key come out of the sort in the order they
      went in: each is inserted behind every bucket already placed. */
  lemma {:induction false} SameKeyKeepsOrder(groups: seq<Group>)
    requires forall i :: 0 <= i < |groups| ==> SortKey(groups[i]) == SortKey(groups[0])
    ensures SortByDate(groups) == groups
  {
    if |groups| > 0 {
      var front := groups[..|groups| - 1];
      var last := groups[|groups| - 1];
      SameKeyKeepsOrder(front);
      LexOrder.Irreflexive(SortKey(last));
      forall i | 0 <= i < |front|
        ensures !LexOrder.Less(SortKey(last), SortKey(front[i]))
      {
        assert front[i] == groups[i];
      }
      InsertLast(last, front);
      FrontLast(groups);
    }
  }

  lemma FrontLast(s: seq<Group>)
    requires |s| > 0
    ensures s[..|s| - 1] + [s[|s| - 1]] == s
  {
  }

  /** A bucket whose key is above none of the sorted buckets goes last. */
  lemma {:induction false} InsertLast(g: Group, sorted: seq<Group>)
    requires forall i :: 0 <= i < |sorted| ==> !LexOrder.Less(SortKey(g), SortKey(sorted[i]))
    ensures Insert(g, sorted) == sorted + [g]
  {
    if |sorted| > 0 {
      InsertStep(g, sorted);
      var tail := sorted[1..];
      forall i | 0 <= i < |tail|
        ensures !LexOrder.Less(SortKey(g), SortKey(tail[i]))
      {
        assert tail[i] == sorted[i + 1];
      }
      InsertLast(g, tail);
      ConsAppend(sorted, g);
    }
  }

  lemma ConsAppend(s: seq<Group>, g: Group)
    requires |s| > 0
    ensures [s[0]] + (s[1..] + [g]) == s + [g]
  {
    assert s == [s[0]] + s[1..];
  }

  /** Sorting the buckets of one room keeps their ids distinct and, when
      keys identify dates, leaves them strictly ascending. */
  lemma SortStrict(groups: seq<Group>)
    requires DistinctIds(groups)
    ensures DistinctIds(SortByDate(groups))
    ensures KeysIdentify(groups) ==> StrictlyAscending(SortByDate(groups))
  {
    var r := SortByDate(groups);
    PermutationDistinctIds(groups, r);
    if KeysIdentify(groups) {
      forall x | x in r
        ensures x in groups
      {
        assert x in multiset(r);
      }
      AscendingIsStrict(r);
    }
  }

  /** In a strictly ascending sequence the first bucket's key is below every
      other bucket's key. */
  lemma FirstIsLeast(s: seq<Group>, x: Group)
    requires StrictlyAscending(s) && x in s
    ensures x == s[0] || LexOrder.Less(SortKey(s[0]), SortKey(x))
  {
  }

  lemma FirstNotInTail(s: seq<Group>)
    requires StrictlyAscending(s) && |s| > 0
    ensures s[0] !in s[1..]
  {
    LexOrder.Irreflexive(SortKey(s[0]));
    forall x | x in s[1..]
      ensures x != s[0]
    {
      TailMembers(s, x);
    }
  }

  /** Two strictly ascending sequences with the same buckets are equal. */
  lemma {:induction false} StrictlyAscendingUnique(a: seq<Group>, b: seq<Group>)
    requires StrictlyAscending(a) && StrictlyAscending(b)
    requires forall x :: x in a <==> x in b
    ensures a == b
    decreases |a|
  {
    assert |a| > 0 ==> a[0] in a;
    assert |b| > 0 ==> b[0] in b;
    if |a| > 0 && |b| > 0 {
      FirstIsLeast(a, b[0]);
      FirstIsLeast(b, a[0]);
      LexOrder.Asymmetric(SortKey(a[0]), SortKey(b[0]));
      assert a[0] == b[0];
      FirstNotInTail(a);
      FirstNotInTail(b);
      assert a == [a[0]] + a[1..] && b == [b[0]] + b[1..];
      forall x
        ensures x in a[1..] <==> x in b[1..]
      {
        assert x in a <==> x == a[0] || x in a[1..];
        assert x in b <==> x == b[0] || x in b[1..];
      }
      StrictlyAscendingUnique(a[1..], b[1..]);
    }
  }

  /** When keys identify dates, any ascending reordering of the buckets —
      whatever sorting algorithm produced it — is the result of
      `SortByDate`. */
  lemma AnySortedPermutationIsTheSort(groups: seq<Group>, p: seq<Group>)
    requires DistinctIds(groups) && KeysIdentify(groups)
    requires multiset(p) == multiset(groups) && Ascending(p)
    ensures p == SortByDate(groups)
  {
    var r := SortByDate(groups);
    SortStrict(groups);
    PermutationDistinctIds(groups, p);
    forall x
      ensures x in p <==> x in r
    {
      assert x in p <==> x in multiset(p);
      assert x in r <==> x in multiset(r);
    }
    forall x | x in p
      ensures x in groups
    {
      assert x in multiset(p);
    }
    AscendingIsStrict(p);
    StrictlyAscendingUnique(p, r);
  }
}

=== FILE: history.dfy ===
/** A room's history as the handlers deliver it: the aggregate of
    `getLastMessagesFromRoom` passed through `sortRoomMessagesByDate`. */
module History {
  import opened Store
  import DateKey
  import LexOrder
  import DateSort

  /** Different dates of the room's messages have different sort keys. */
  predicate KeysDistinct(store: seq<Message>, room: Room) {
    forall m1, m2 ::
      (m1 in store && m2 in store && m1.to == room && m2.to == room
       && DateKey.Key(m1.date) == DateKey.Key(m2.date)) ==> m1.date == m2.date
  }

  /** A reordering of a result of the aggregate is again one. */
  lemma PermutationIsGrouping(store: seq<Message>, room: Room, a: seq<Group>, b: seq<Group>)
    requires IsGrouping(store, room, a) && multiset(a) == multiset(b)
    ensures IsGrouping(store, room, b)
  {
    DateSort.PermutationDistinctIds(a, b);
    forall g
      ensures g in a <==> g in b
    {
      assert g in a <==> g in multiset(a);
      assert g in b <==> g in multiset(b);
    }
    assert Ids(a) == Ids(b);
  }

  /** Every bucket's date is the date of one of the room's messages. */
  lemma BucketWitness(store: seq<Message>, room: Room, groups: seq<Group>, g: Group) returns (m: Message)
    requires IsGrouping(store, room, groups) && g in groups
    ensures m in store && m.to == room && m.date == g.id
  {
    m := g.messagesByDate[0];
    assert m in Matching(store, room, g.id);
  }

  lemma DistinctKeysIdentify(store: seq<Message>, room: Room, groups: seq<Group>)
    requires IsGrouping(store, room, groups) && KeysDistinct(store, room)
    ensures DateSort.KeysIdentify(groups)
  {
    forall x, y | x in groups && y in groups && DateSort.SortKey(x) == DateSort.SortKey(y)
      ensures x.id == y.id
    {
      var mx := BucketWitness(store, room, groups, x);
      var my := BucketWitness(store, room, groups, y);
    }
  }

  /** `sortRoomMessagesByDate(await getLastMessagesFromRoom(room))`. */
  function RoomHistory(store: seq<Message>, room: Room): (r: seq<Group>)
    ensures IsGrouping(store, room, r)
    ensures DateSort.Ascending(r)
  {
    var groups := GroupByDate(store, room);
    var r := DateSort.SortByDate(groups);
    PermutationIsGrouping(store, room, groups, r);
    r
  }

  /** A room's history is empty exactly when the room has no messages. */
  lemma RoomHistoryEmpty(store: seq<Message>, room: Room)
    ensures RoomHistory(store, room) == [] <==> forall m :: m in store ==> m.to != room
  {
    EmptyRoom(store, room, RoomHistory(store, room));
  }

  /** When different dates of the room have different keys, the history's
      keys strictly ascend. */
  lemma RoomHistoryStrict(store: seq<Message>, room: Room)
    requires KeysDistinct(store, room)
    ensures DateSort.StrictlyAscending(RoomHistory(store, room))
  {
    var groups := GroupByDate(store, room);
    DateSort.SortStrict(groups);
    DistinctKeysIdentify(store, room, groups);
  }

  /** Zero-padded dates always have distinct keys. */
  lemma PaddedDatesKeysDistinct(store: seq<Message>, room: Room)
    requires forall m :: m in store && m.to == room ==> DateKey.PaddedDate(m.date)
    ensures KeysDistinct(store, room)
  {
    forall m1, m2 | m1 in store && m2 in store && m1.to == room && m2.to == room
      && DateKey.Key(m1.date) == DateKey.Key(m2.date)
      ensures m1.date == m2.date
    {
      DateKey.KeyRoundTrip(m1.date);
      DateKey.KeyRoundTrip(m2.date);
    }
  }

  /** The history is the one strictly ascending result of the aggregate:
      any such sequence of buckets is exactly what the handlers send. */
  lemma HistoryIsTheSortedGrouping(store: seq<Message>, room: Room, r: seq<Group>)
    requires IsGrouping(store, room, r) && DateSort.StrictlyAscending(r)
    ensures r == RoomHistory(store, room)
  {
    var groups := GroupByDate(store, room);
    var h := RoomHistory(store, room);
    GroupingsAgree(store, room, r, groups);
    GroupingsAgree(store, room, r, h);
    forall x, y | x in groups && y in groups && DateSort.SortKey(x) == DateSort.SortKey(y)
      ensures x.id == y.id
    {
      var i :| 0 <= i < |r| && r[i] == x;
      var j :| 0 <= j < |r| && r[j] == y;
      LexOrder.Irreflexive(DateSort.SortKey(x));
    }
    DateSort.SortStrict(groups);
    DateSort.StrictlyAscendingUnique(r, h);
  }

  /** MongoDB does not fix the order of `$group`'s output; once keys are
      distinct, the sorted history does not depend on it. */
  lemma HistoryIgnoresBucketOrder(store: seq<Message>, room: Room, groups: seq<Group>)
    requires IsGrouping(store, room, groups) && KeysDistinct(store, room)
    ensures DateSort.SortByDate(groups) == RoomHistory(store, room)
  {
    var r := DateSort.SortByDate(groups);
    DateSort.SortStrict(groups);
    DistinctKeysIdentify(store, room, groups);
    PermutationIsGrouping(store, room, groups, r);
    HistoryIsTheSortedGrouping(store, room, r);
  }

  /** Every message of the room sits in exactly one bucket of its history,
      the bucket of its date; messages of other rooms sit in none. */
  lemma HistoryPlacement(store: seq<Message>, room: Room, m: Message)
    requires m in store
    ensures var h := RoomHistory(store, room);
      && (forall i :: 0 <= i < |h| ==> (m in h[i].messagesByDate <==> m.to == room && h[i].id == m.date))
      && (m.to == room ==> exists i :: 0 <= i < |h| && m in h[i].messagesByDate)
      && (forall i, j :: 0 <= i < |h| && 0 <= j < |h| && m in h[i].messagesByDate && m in h[j].messagesByDate ==> i == j)
  {
    Placement(store, room, RoomHistory(store, room), m);
  }

  /** A message for one room leaves every other room's history unchanged. */
  lemma AppendOtherRoom(store: seq<Message>, m: Message, room: Room)
    requires m.to != room
    ensures RoomHistory(store + [m], room) == RoomHistory(store, room)
  {
    assert (store + [m])[..|store|] == store;
  }

  /** After a message is stored, its room's history has the bucket for its
      date ending with that message, after the earlier ones of that date. */
  lemma AppendShowsMessage(store: seq<Message>, m: Message)
    ensures var h := RoomHistory(store + [m], m.to);
      exists i :: 0 <= i < |h| && h[i] == Group(m.date, Matching(store, m.to, m.date) + [m])
  {
    var h := RoomHistory(store + [m], m.to);
    assert m in store + [m];
    assert m.date in Ids(h);
    var g :| g in h && g.id == m.date;
    var i :| 0 <= i < |h| && h[i] == g;
    MatchingAppend(store, m, m.to, m.date);
  }

  /** Two messages of one room on different dates: the aggregate makes one
      bucket of each, in either order. */
  lemma TwoDayGrouping(m1: Message, m2: Message, room: Room)
    requires m1.to == room && m2.to == room && m1.date != m2.date
    ensures var g1, g2 := Group(m1.date, [m1]), Group(m2.date, [m2]);
      IsGrouping([m1, m2], room, [g1, g2]) && IsGrouping([m1, m2], room, [g2, g1])
  {
    var store := [m1, m2];
    assert store[..1] == [m1] && [m1][..0] == [];
    assert Matching([m1], room, m1.date) == [m1];
    assert Matching(store, room, m1.date) == [m1];
    assert Matching([m1], room, m2.date) == [];
    assert Matching(store, room, m2.date) == [m2];
  }

  /** Two messages of one room on days with different keys come back as
      two one-message buckets, the smaller key first, whatever their order
      in the log. */
  lemma TwoDays(m1: Message, m2: Message, room: Room)
    requires m1.to == room && m2.to == room
    requires DateKey.Key(m1.date) != DateKey.Key(m2.date)
    ensures var g1, g2 := Group(m1.date, [m1]), Group(m2.date, [m2]);
      RoomHistory([m1, m2], room)
      == if LexOrder.Less(DateKey.Key(m1.date), DateKey.Key(m2.date)) then [g1, g2] else [g2, g1]
  {
    var g1, g2 := Group(m1.date, [m1]), Group(m2.date, [m2]);
    TwoDayGrouping(m1, m2, room);
    LexOrder.Total(DateKey.Key(m1.date), DateKey.Key(m2.date));
    if LexOrder.Less(DateKey.Key(m1.date), DateKey.Key(m2.date)) {
      DateSort.PairAscending(g1, g2);
      HistoryIsTheSortedGrouping([m1, m2], room, [g1, g2]);
    } else {
      DateSort.PairAscending(g2, g1);
      HistoryIsTheSortedGrouping([m1, m2], room, [g2, g1]);
    }
  }

  /** Two messages of one room on different dates that share a key (as
      unpadded dates can) come back as two buckets in log order. */
  lemma CollidingDatesKeepLogOrder(m1: Message, m2: Message, room: Room)
    requires m1.to == room && m2.to == room && m1.date != m2.date
    requires DateKey.Key(m1.date) == DateKey.Key(m2.date)
    ensures RoomHistory([m1, m2], room) == [Group(m1.date, [m1]), Group(m2.date, [m2])]
  {
    var g1, g2 := Group(m1.date, [m1]), Group(m2.date, [m2]);
    assert [m1, m2][..1] == [m1] && [m1][..0] == [];
    assert GroupByDate([m1], room) == [g1];
    assert m2.date !in Ids([g1]);
    assert GroupByDate([m1, m2], room) == [g1, g2];
    DateSort.EqualKeysKeepOrder(g1, g2);
  }

  /** Whatever order the aggregate returns the two buckets of colliding
      dates in, the sort keeps it: the history follows the aggregate's
      order, not the log's. */
  lemma CollidingDatesKeepGroupOrder(m1: Message, m2: Message, room: Room, gs: seq<Group>)
    requires m1.to == room && m2.to == room && m1.date != m2.date
    requires DateKey.Key(m1.date) == DateKey.Key(m2.date)
    requires IsGrouping([m1, m2], room, gs)
    ensures var g1, g2 := Group(m1.date, [m1]), Group(m2.date, [m2]);
      gs == [g1, g2] || gs == [g2, g1]
    ensures DateSort.SortByDate(gs) == gs
  {
    var g1, g2 := Group(m1.date, [m1]), Group(m2.date, [m2]);
    TwoDayGrouping(m1, m2, room);
    GroupingsAgree([m1, m2], room, [g1, g2], gs);
    TwoBuckets(gs, g1, g2);
    if gs == [g1, g2] {
      DateSort.EqualKeysKeepOrder(g1, g2);
    } else {
      DateSort.EqualKeysKeepOrder(g2, g1);
    }
  }

  /** Within one year, the key order of two three-field dates is the order
      of their first two fields read together. */
  lemma SameYearKeys(d1: string, d2: string, a0: string, a1: string, b0: string, b1: string, year: string)
    requires DateKey.Separator !in a0 && DateKey.Separator !in a1
    requires DateKey.Separator !in b0 && DateKey.Separator !in b1 && DateKey.Separator !in year
    requires d1 == a0 + [DateKey.Separator] + a1 + [DateKey.Separator] + year
    requires d2 == b0 + [DateKey.Separator] + b1 + [DateKey.Separator] + year
    ensures LexOrder.Less(DateKey.Key(d1), DateKey.Key(d2)) <==> LexOrder.Less(a0 + a1, b0 + b1)
  {
    KeyInYear(d1, a0, a1, year);
    KeyInYear(d2, b0, b1, year);
    LexOrder.CommonPrefix(year, a0 + a1, b0 + b1);
  }

  lemma KeyInYear(d: string, a0: string, a1: string, year: string)
    requires DateKey.Separator !in a0 && DateKey.Separator !in a1 && DateKey.Separator !in year
    requires d == a0 + [DateKey.Separator] + a1 + [DateKey.Separator] + year
    ensures DateKey.Key(d) == year + (a0 + a1)
  {
    DateKey.KeyOfThreeFields(d, a0, a1, year);
    assert year + a0 + a1 == year + (a0 + a1);
  }

  /** Two messages to "general", dated "01/01/2024" and "02/01/2024",
      come back as two buckets in that order, since their keys are
      "20240101" and "20240201". */
  lemma TwoDaysExample(m1: Message, m2: Message)
    requires m1.to == "general" && m1.date == "01/01/2024"
    requires m2.to == "general" && m2.date == "02/01/2024"
    ensures RoomHistory([m1, m2], "general")
            == [Group("01/01/2024", [m1]), Group("02/01/2024", [m2])]
  {
    assert m1.date == "01" + [DateKey.Separator] + "01" + [DateKey.Separator] + "2024";
    assert m2.date == "02" + [DateKey.Separator] + "01" + [DateKey.Separator] + "2024";
    assert LexOrder.Less("01" + "01", "02" + "01");
    SameYearKeys(m1.date, m2.date, "01", "01", "02", "01", "2024");
    LexOrder.Irreflexive(DateKey.Key(m1.date));
    TwoDays(m1, m2, "general");
  }

  /** The key puts the first field before the second: a message dated
      "01/02/2024" is listed before one dated "05/01/2024" stored earlier,
      since "20240102" is below "20240501". */
  lemma FirstFieldOrdersExample(m1: Message, m2: Message)
    requires m1.to == "general" && m1.date == "05/01/2024"
    requires m2.to == "general" && m2.date == "01/02/2024"
    ensures RoomHistory([m1, m2], "general")
            == [Group("01/02/2024", [m2]), Group("05/01/2024", [m1])]
  {
    assert m1.date == "05" + [DateKey.Separator] + "01" + [DateKey.Separator] + "2024";
    assert m2.date == "01" + [DateKey.Separator] + "02" + [DateKey.Separator] + "2024";
    assert LexOrder.Less("01" + "02", "05" + "01");
    SameYearKeys(m2.date, m1.date, "01", "02", "05", "01", "2024");
    LexOrder.Asymmetric(DateKey.Key(m2.date), DateKey.Key(m1.date));
    LexOrder.Irreflexive(DateKey.Key(m2.date));
    TwoDays(m1, m2, "general");
  }
}

=== FILE: lex_order.dfy ===
/** JavaScript's `<` on two strings: lexicographic order, character by
    character, where a proper prefix is smaller than the longer string.
    Dafny's own `<` on sequences means "proper prefix", so the order the
    comparator relies on is defined here explicitly. */
module LexOrder {

  /** True iff `a` sorts strictly before `b`. */
  predicate Less(a: string, b: string)
    decreases |a|
  {
    if |a| == 0 then |b| > 0
    else if |b| == 0 then false
    else if a[0] != b[0] then a[0] < b[0]
    else Less(a[1..], b[1..])
  }

  lemma {:induction false} Irreflexive(a: string)
    ensures !Less(a, a)
    decreases |a|
  {
    if |a| > 0 {
      Irreflexive(a[1..]);
    }
  }

  lemma {:induction false} Asymmetric(a: string, b: string)
    ensures Less(a, b) ==> !Less(b, a)
    decreases |a|
  {
    if |a| > 0 && |b| > 0 && a[0] == b[0] {
      Asymmetric(a[1..], b[1..]);
    }
  }

  lemma {:induction false} Transitive(a: string, b: string, c: string)
    ensures Less(a, b) && Less(b, c) ==> Less(a, c)
    decreases |a|
  {
    if |a| > 0 && |b| > 0 && |c| > 0 && a[0] == b[0] && b[0] == c[0] {
      Transitive(a[1..], b[1..], c[1..]);
    }
  }

  /** Any two different strings are ordered one way or the other. */
  lemma {:induction false} Total(a: string, b: string)
    ensures a != b ==> Less(a, b) || Less(b, a)
    decreases |a|
  {
    if |a| > 0 && |b| > 0 && a[0] == b[0] {
      assert a == [a[0]] + a[1..] && b == [b[0]] + b[1..];
      Total(a[1..], b[1..]);
    }
  }

  /** A common prefix does not change the order of two strings. */
  lemma {:induction false} CommonPrefix(p: string, a: string, b: string)
    ensures Less(p + a, p + b) <==> Less(a, b)
    decreases |p|
  {
    if |p| > 0 {
      assert (p + a)[1..] == p[1..] + a;
      assert (p + b)[1..] == p[1..] + b;
      CommonPrefix(p[1..], a, b);
    } else {
      assert p + a == a && p + b == b;
    }
  }
}

=== FILE: relay.dfy ===
/** The socket handlers of the chat server as one dispatch function over
    an explicit state: the connected sockets with their rooms, and the
    message log. Each handler returns the new state and what it emits, to
    whom. The outcome of the foreign calls (`Message.create`, the
    aggregate, `User.find`) is a parameter. */
module Relay {
  import opened Store
  import Rooms
  import History
  import DateSort

  /** A user record as `User.find()` returns it; the handlers pass it on
      untouched. */
  datatype Member = Member(id: string, status: string, newMessages: int)

  /** Whether the store's write (`Message.create`) and reads (the
      aggregate, `User.find`) succeed during this event. */
  datatype StoreIO = StoreIO(writeOk: bool, readOk: bool)

  /** The socket events the server listens to. */
  datatype Event =
    | NewUser
    | JoinRoom(newRoom: Room, previousRoom: Room)
    | MessageRoom(room: Room, content: string, sender: string, time: string, date: string)

  /** The events the server emits: `new-user`, `room-messages`,
      `notifications`. */
  datatype Payload =
    | Members(users: seq<Member>)
    | RoomMessages(history: seq<Group>)
    | Notification(room: Room)

  datatype Emission = Emission(recipients: set<Rooms.ConnId>, payload: Payload)

  datatype Server = Server(registry: Rooms.Registry, store: seq<Message>)

  datatype Outcome = Outcome(server: Server, emissions: seq<Emission>)

  /** `new-user`: the full user list to every connected socket, the caller
      included. */
  function OnNewUser(s: Server, c: Rooms.ConnId, io: StoreIO, users: seq<Member>): (o: Outcome)
    requires c in s.registry
    ensures o.server == s
    ensures io.readOk ==> |o.emissions| == 1 && o.emissions[0].payload == Members(users)
                          && c in o.emissions[0].recipients
                          && o.emissions[0].recipients == s.registry.Keys
    ensures !io.readOk ==> o.emissions == []
  {
    if io.readOk then Outcome(s, [Emission(s.registry.Keys, Members(users))])
    else Outcome(s, [])
  }

  /** `join-room`: the membership change happens before the history read,
      so it stands even when the read fails; the history goes to the caller
      alone. */
  function OnJoinRoom(s: Server, c: Rooms.ConnId, newRoom: Room, previousRoom: Room, io: StoreIO): (o: Outcome)
    requires c in s.registry
    ensures o.server.store == s.store
    ensures o.server.registry == Rooms.JoinRoom(s.registry, c, newRoom, previousRoom)
    ensures io.readOk ==> |o.emissions| == 1 && o.emissions[0].recipients == {c}
                          && o.emissions[0].payload.RoomMessages?
                          && IsGrouping(s.store, newRoom, o.emissions[0].payload.history)
                          && DateSort.Ascending(o.emissions[0].payload.history)
    ensures !io.readOk ==> o.emissions == []
  {
    var s' := Server(Rooms.JoinRoom(s.registry, c, newRoom, previousRoom), s.store);
    if io.readOk then
      Outcome(s', [Emission({c}, RoomMessages(History.RoomHistory(s.store, newRoom)))])
    else Outcome(s', [])
  }

  /** `message-room`: store the message, read the room's history back, send
      it to the room and a notification to every other socket. A failed
      write stops the handler before anything is stored or sent; a failed
      read after a good write keeps the message but sends nothing. */
  function OnMessageRoom(s: Server, c: Rooms.ConnId, room: Room, content: string, sender: string,
                         time: string, date: string, io: StoreIO): (o: Outcome)
    requires c in s.registry
    ensures o.server.registry == s.registry
    ensures !io.writeOk ==> o == Outcome(s, [])
    ensures io.writeOk ==> o.server.store == s.store + [Message(content, sender, time, date, room)]
    ensures io.writeOk && !io.readOk ==> o.emissions == []
    ensures io.writeOk && io.readOk ==>
              && |o.emissions| == 2
              && o.emissions[0].recipients == Rooms.RoomMembers(s.registry, room)
              && o.emissions[0].payload.RoomMessages?
              && IsGrouping(o.server.store, room, o.emissions[0].payload.history)
              && DateSort.Ascending(o.emissions[0].payload.history)
              && o.emissions[1] == Emission(s.registry.Keys - {c}, Notification(room))
  {
    if !io.writeOk then Outcome(s, [])
    else
      var store' := s.store + [Message(content, sender, time, date, room)];
      var s' := Server(s.registry, store');
      if !io.readOk then Outcome(s', [])
      else
        Outcome(s', [Emission(Rooms.RoomMembers(s.registry, room), RoomMessages(History.RoomHistory(store', room))),
                     Emission(Rooms.Others(s.registry, c), Notification(room))])
  }

  /** The dispatcher: one event from connection `c`. */
  function Handle(s: Server, c: Rooms.ConnId, e: Event, io: StoreIO, users: seq<Member>): (o: Outcome)
    requires c in s.registry
    ensures o.server.registry.Keys == s.registry.Keys
  {
    match e
    case NewUser => OnNewUser(s, c, io, users)
    case JoinRoom(newRoom, previousRoom) => OnJoinRoom(s, c, newRoom, previousRoom, io)
    case MessageRoom(room, content, sender, time, date) =>
      OnMessageRoom(s, c, room, content, sender, time, date, io)
  }

  /** Every history a handler sends is a complete, ascending snapshot of the
      log as it stands after the event, for one room: every message of the
      room sits in exactly one bucket, the one for its date. */
  lemma SnapshotsConsistent(s: Server, c: Rooms.ConnId, e: Event, io: StoreIO, users: seq<Member>)
    requires c in s.registry
    ensures var o := Handle(s, c, e, io, users);
      forall i :: 0 <= i < |o.emissions| && o.emissions[i].payload.RoomMessages? ==>
        exists room :: IsGrouping(o.server.store, room, o.emissions[i].payload.history)
                       && DateSort.Ascending(o.emissions[i].payload.history)
  {
    match e
    case NewUser =>
    case JoinRoom(newRoom, previousRoom) =>
      var o := OnJoinRoom(s, c, newRoom, previousRoom, io);
      if io.readOk {
        assert IsGrouping(o.server.store, newRoom, o.emissions[0].payload.history);
      }
    case MessageRoom(room, content, sender, time, date) =>
      var o := OnMessageRoom(s, c, room, content, sender, time, date, io);
      if io.writeOk && io.readOk {
        assert IsGrouping(o.server.store, room, o.emissions[0].payload.history);
        assert o.emissions[1].payload.Notification?;
      }
  }

  /** A message's fan-out: the history reaches exactly the sockets in the
      room, the sender too when it is in the room; the notification reaches
      every connected socket but the sender, whatever room they are in. */
  lemma MessageFanOut(s: Server, c: Rooms.ConnId, room: Room, content: string, sender: string,
                      time: string, date: string, x: Rooms.ConnId)
    requires c in s.registry
    ensures var o := OnMessageRoom(s, c, room, content, sender, time, date, StoreIO(true, true));
      && (x in o.emissions[0].recipients <==> x in s.registry && room in s.registry[x])
      && (x in o.emissions[1].recipients <==> x in s.registry && x != c)
  {
  }

  /** The history sent after a message holds that message, last in the
      bucket of its date. */
  lemma MessageDelivered(s: Server, c: Rooms.ConnId, room: Room, content: string, sender: string,
                         time: string, date: string)
    requires c in s.registry
    ensures var o := OnMessageRoom(s, c, room, content, sender, time, date, StoreIO(true, true));
      var m := Message(content, sender, time, date, room);
      var h := o.emissions[0].payload.history;
      exists j :: 0 <= j < |h| && h[j] == Group(date, Matching(s.store, room, date) + [m])
  {
    History.AppendShowsMessage(s.store, Message(content, sender, time, date, room));
  }

  /** A socket that has joined no room besides the one named by its own id
      never receives a history another socket's event sends, unless that
      event posts to its id. */
  lemma UnjoinedGetsNoHistory(s: Server, c: Rooms.ConnId, e: Event, io: StoreIO, users: seq<Member>,
                              x: Rooms.ConnId)
    requires c in s.registry && x in s.registry && s.registry[x] <= {x} && x != c
    requires e.MessageRoom? ==> e.room != x
    ensures var o := Handle(s, c, e, io, users);
      forall i :: 0 <= i < |o.emissions| && o.emissions[i].payload.RoomMessages? ==> x !in o.emissions[i].recipients
  {
    match e
    case NewUser =>
    case JoinRoom(newRoom, previousRoom) =>
    case MessageRoom(room, content, sender, time, date) =>
      HistoryGoesToRoom(s, c, room, content, sender, time, date, io);
      assert x !in Rooms.RoomMembers(s.registry, room);
  }

  /** A socket still in the room named by its id that posts to that id gets
      the history back. */
  lemma PostToOwnId(s: Server, c: Rooms.ConnId, content: string, sender: string, time: string, date: string)
    requires c in s.registry && c in s.registry[c]
    ensures var o := OnMessageRoom(s, c, c, content, sender, time, date, StoreIO(true, true));
      c in o.emissions[0].recipients
  {
  }

  /** When the write and the read both succeed, `message-room` emits a
      history and then a notification. */
  lemma MessageRoomSends(s: Server, c: Rooms.ConnId, room: Room, content: string, sender: string,
                         time: string, date: string, io: StoreIO)
    requires c in s.registry && io.writeOk && io.readOk
    ensures var o := OnMessageRoom(s, c, room, content, sender, time, date, io);
      && |o.emissions| == 2
      && o.emissions[0].recipients == Rooms.RoomMembers(s.registry, room)
      && o.emissions[1].payload.Notification?
  {
  }

  /** The only history `message-room` sends goes to the room's sockets. */
  lemma HistoryGoesToRoom(s: Server, c: Rooms.ConnId, room: Room, content: string, sender: string,
                          time: string, date: string, io: StoreIO)
    requires c in s.registry
    ensures var o := OnMessageRoom(s, c, room, content, sender, time, date, io);
      forall i :: 0 <= i < |o.emissions| && o.emissions[i].payload.RoomMessages? ==>
        o.emissions[i].recipients == Rooms.RoomMembers(s.registry, room)
  {
    var o := OnMessageRoom(s, c, room, content, sender, time, date, io);
    if io.writeOk && io.readOk {
      MessageRoomSends(s, c, room, content, sender, time, date, io);
    } else {
      assert o.emissions == [];
    }
  }

  /** A socket that switches from room `a` to room `b` gets no further
      history of `a` when another socket then writes to `a`, whether or not
      the history read of its own switch succeeded. */
  lemma SwitchedSocketMissesOldRoom(s: Server, c: Rooms.ConnId, d: Rooms.ConnId, a: Room, b: Room,
                                    content: string, sender: string, time: string, date: string,
                                    joinIO: StoreIO, postIO: StoreIO)
    requires c in s.registry && d in s.registry && a != b
    ensures var s1 := OnJoinRoom(s, c, b, a, joinIO).server;
      var o := OnMessageRoom(s1, d, a, content, sender, time, date, postIO);
      forall i :: 0 <= i < |o.emissions| && o.emissions[i].payload.RoomMessages? ==> c !in o.emissions[i].recipients
  {
    var s1 := OnJoinRoom(s, c, b, a, joinIO).server;
    Rooms.SwitchChangesFanOut(s.registry, c, b, a);
    HistoryGoesToRoom(s1, d, a, content, sender, time, date, postIO);
  }
}

=== FILE: rooms.dfy ===
/** Room membership of the connected sockets, as socket.io keeps it for
    the handlers: `socket.join`, `socket.leave`, and the recipient sets of
    `io.to(room)` and `socket.broadcast`. */
module Rooms {
  import opened Store

  type ConnId = string

  /** For every connected socket, the rooms it has joined. */
  type Registry = map<ConnId, set<Room>>

  /** A socket that has just connected. socket.io puts it in one room
      named by its own id, and in no other. */
  function Connect(reg: Registry, c: ConnId): (r: Registry)
    requires c !in reg
    ensures r.Keys == reg.Keys + {c}
    ensures forall x :: x in reg ==> r[x] == reg[x]
    ensures forall room :: room in r[c] <==> room == c
  {
    reg[c := {c}]
  }

  /** `socket.join(room)`. */
  function Join(reg: Registry, c: ConnId, room: Room): (r: Registry)
    requires c in reg
    ensures r.Keys == reg.Keys
    ensures forall x :: x in reg && x != c ==> r[x] == reg[x]
    ensures room in r[c]
    ensures forall other :: other != room ==> (other in r[c] <==> other in reg[c])
  {
    reg[c := reg[c] + {room}]
  }

  /** `socket.leave(room)`. */
  function Leave(reg: Registry, c: ConnId, room: Room): (r: Registry)
    requires c in reg
    ensures r.Keys == reg.Keys
    ensures forall x :: x in reg && x != c ==> r[x] == reg[x]
    ensures room !in r[c]
    ensures forall other :: other != room ==> (other in r[c] <==> other in reg[c])
  {
    reg[c := reg[c] - {room}]
  }

  /** The membership change of `join-room`: join `newRoom`, then leave
      `previousRoom`, both as the client names them. */
  function JoinRoom(reg: Registry, c: ConnId, newRoom: Room, previousRoom: Room): (r: Registry)
    requires c in reg
    ensures r.Keys == reg.Keys
    ensures forall x :: x in reg && x != c ==> r[x] == reg[x]
    ensures newRoom in r[c] <==> newRoom != previousRoom
    ensures previousRoom !in r[c]
    ensures forall room :: room != newRoom && room != previousRoom ==> (room in r[c] <==> room in reg[c])
  {
    Leave(Join(reg, c, newRoom), c, previousRoom)
  }

  /** The sockets `io.to(room)` reaches. */
  function RoomMembers(reg: Registry, room: Room): (r: set<ConnId>)
    ensures r <= reg.Keys
  {
    set x | x in reg && room in reg[x]
  }

  /** The sockets `socket.broadcast` reaches: every connected one but `c`. */
  function Others(reg: Registry, c: ConnId): (r: set<ConnId>)
    ensures c !in r && r <= reg.Keys
    ensures |r| == if c in reg then |reg.Keys| - 1 else |reg.Keys|
  {
    reg.Keys - {c}
  }

  /** Right after connecting, a socket is the one member of the room named
      by its id, unless another socket has joined that room. */
  lemma ConnectOwnRoom(reg: Registry, c: ConnId)
    requires c !in reg
    ensures RoomMembers(Connect(reg, c), c) == RoomMembers(reg, c) + {c}
  {
    var r := Connect(reg, c);
    forall x
      ensures x in RoomMembers(r, c) <==> x in RoomMembers(reg, c) + {c}
    {
      if x in reg && x != c {
        assert r[x] == reg[x];
      }
    }
  }

  /** Leaving a room the socket is not in changes nothing. */
  lemma LeaveAbsent(reg: Registry, c: ConnId, room: Room)
    requires c in reg && room !in reg[c]
    ensures Leave(reg, c, room) == reg
  {
    assert reg[c] - {room} == reg[c];
  }

  /** A socket whose one joined room, besides the room named by its own
      id, is the one it reports as previous ends up, besides its own-id
      room, in exactly the new room when it switches to a different one.
      Its own-id room is kept as it was. */
  lemma SwitchKeepsOneRoom(reg: Registry, c: ConnId, newRoom: Room, previousRoom: Room)
    requires c in reg && reg[c] <= {c, previousRoom}
    requires newRoom != previousRoom && newRoom != c && previousRoom != c
    ensures JoinRoom(reg, c, newRoom, previousRoom)[c] - {c} == {newRoom}
    ensures c in JoinRoom(reg, c, newRoom, previousRoom)[c] <==> c in reg[c]
    ensures c in reg[c] ==> JoinRoom(reg, c, newRoom, previousRoom)[c] == {c, newRoom}
  {
    var r := JoinRoom(reg, c, newRoom, previousRoom);
    forall room | room in r[c] && room != c
      ensures room == newRoom
    {
    }
  }

  /** Joining the room the socket reports as its previous one leaves it:
      the join happens first and the leave undoes it. */
  lemma RejoinLeavesRoom(reg: Registry, c: ConnId, room: Room)
    requires c in reg
    ensures JoinRoom(reg, c, room, room)[c] == reg[c] - {room}
    ensures c !in RoomMembers(JoinRoom(reg, c, room, room), room)
  {
  }

  /** How `join-room` changes each room's fan-out: the caller leaves the
      previous room's, joins the new room's when the two differ, and every
      other room's is unchanged. */
  lemma JoinRoomFanOut(reg: Registry, c: ConnId, newRoom: Room, previousRoom: Room, room: Room)
    requires c in reg
    ensures RoomMembers(JoinRoom(reg, c, newRoom, previousRoom), room)
            == if room == previousRoom then RoomMembers(reg, room) - {c}
               else if room == newRoom then RoomMembers(reg, room) + {c}
               else RoomMembers(reg, room)
  {
    var r := JoinRoom(reg, c, newRoom, previousRoom);
    var want := if room == previousRoom then RoomMembers(reg, room) - {c}
                else if room == newRoom then RoomMembers(reg, room) + {c}
                else RoomMembers(reg, room);
    forall x
      ensures x in RoomMembers(r, room) <==> x in want
    {
      if x != c && x in reg {
        assert r[x] == reg[x];
      }
    }
  }

  /** After a switch from `previousRoom`, the socket no longer receives that
      room's fan-out, and receives the new room's. */
  lemma SwitchChangesFanOut(reg: Registry, c: ConnId, newRoom: Room, previousRoom: Room)
    requires c in reg && newRoom != previousRoom
    ensures c !in RoomMembers(JoinRoom(reg, c, newRoom, previousRoom), previousRoom)
    ensures c in RoomMembers(JoinRoom(reg, c, newRoom, previousRoom), newRoom)
  {
  }
}

=== FILE: store.dfy ===
/** The persisted message log and the aggregate over it that
    `getLastMessagesFromRoom` runs: `$match` on the destination room, then
    `$group` by the exact `date` string, pushing whole messages into each
    bucket in store order. */
module Store {

  type Room = string

  /** A persisted message, with the fields `Message.create` writes. */
  datatype Message = Message(content: string, from: string, time: string, date: string, to: Room)

  /** One bucket of the aggregate: `_id` is the shared date string and
      `messagesByDate` the pushed messages. */
  datatype Group = Group(id: string, messagesByDate: seq<Message>)

  /** Reference definition: the messages of `store` sent to `room` on
      `date`, in store order. */
  function Matching(store: seq<Message>, room: Room, date: string): (r: seq<Message>)
    ensures forall m :: m in r <==> m in store && m.to == room && m.date == date
  {
    if |store| == 0 then []
    else
      var last := store[|store| - 1];
      assert store == store[..|store| - 1] + [last];
      var r := Matching(store[..|store| - 1], room, date);
      if last.to == room && last.date == date then r + [last] else r
  }

  /** Appending to the log extends exactly one reference bucket. */
  lemma MatchingAppend(store: seq<Message>, m: Message, room: Room, date: string)
    ensures Matching(store + [m], room, date)
            == if m.to == room && m.date == date then Matching(store, room, date) + [m]
               else Matching(store, room, date)
  {
    assert (store + [m])[..|store|] == store;
  }

  function Ids(groups: seq<Group>): set<string> {
    set g | g in groups :: g.id
  }

  predicate DistinctIds(groups: seq<Group>) {
    forall i, j :: 0 <= i < j < |groups| ==> groups[i].id != groups[j].id
  }

  /** Every bucket holds exactly the reference messages for its date, and
      none is empty. */
  predicate BucketsMatch(store: seq<Message>, room: Room, groups: seq<Group>) {
    forall g :: g in groups ==> g.messagesByDate == Matching(store, room, g.id) && g.messagesByDate != []
  }

  /** `groups` is a possible result of the aggregate over `store` for
      `room`: one bucket per distinct date of the room's messages, in any
      order. */
  predicate IsGrouping(store: seq<Message>, room: Room, groups: seq<Group>) {
    && DistinctIds(groups)
    && BucketsMatch(store, room, groups)
    && (forall m :: m in store && m.to == room ==> m.date in Ids(groups))
  }

  /** `$push` of one message into the bucket whose `_id` is its date. */
  function AddTo(g: Group, m: Message): Group {
    if g.id == m.date then Group(g.id, g.messagesByDate + [m]) else g
  }

  /** One step of `$group`: the message joins the bucket for its date, or a
      new bucket is opened at the end. */
  function Push(groups: seq<Group>, m: Message): (r: seq<Group>)
    ensures Ids(r) == Ids(groups) + {m.date}
    ensures |r| == if m.date in Ids(groups) then |groups| else |groups| + 1
  {
    if m.date in Ids(groups) then
      var r := seq(|groups|, i requires 0 <= i < |groups| => AddTo(groups[i], m));
      SameIds(groups, r);
      r
    else groups + [Group(m.date, [m])]
  }

  /** Two bucket sequences with the same ids position by position have the
      same set of ids. */
  lemma SameIds(a: seq<Group>, b: seq<Group>)
    requires |a| == |b| && forall i :: 0 <= i < |a| ==> a[i].id == b[i].id
    ensures Ids(a) == Ids(b)
  {
    forall id | id in Ids(a)
      ensures id in Ids(b)
    {
      var g :| g in a && g.id == id;
      var i :| 0 <= i < |a| && a[i] == g;
      assert b[i] in b;
    }
    forall id | id in Ids(b)
      ensures id in Ids(a)
    {
      var g :| g in b && g.id == id;
      var i :| 0 <= i < |b| && b[i] == g;
      assert a[i] in a;
    }
  }

  /** A date with messages of the room in the log has a bucket. */
  lemma SeenDate(store: seq<Message>, room: Room, groups: seq<Group>, date: string)
    requires IsGrouping(store, room, groups) && Matching(store, room, date) != []
    ensures date in Ids(groups)
  {
    var m := Matching(store, room, date)[0];
    assert m in Matching(store, room, date);
  }

  /** Pushing a message of `room` onto the buckets of the log gives the
      buckets of the log with that message appended. */
  lemma PushKeepsGrouping(store: seq<Message>, room: Room, groups: seq<Group>, m: Message)
    requires m.to == room && IsGrouping(store, room, groups)
    ensures IsGrouping(store + [m], room, Push(groups, m))
  {
    forall id
      ensures Matching(store + [m], room, id)
              == if id == m.date then Matching(store, room, id) + [m] else Matching(store, room, id)
    {
      MatchingAppend(store, m, room, id);
    }
    if m.date in Ids(groups) {
      PushIntoBucket(store, room, groups, m);
    } else {
      if Matching(store, room, m.date) != [] {
        SeenDate(store, room, groups, m.date);
      }
      var r := Push(groups, m);
      assert r[|groups|] in r;
    }
  }

  lemma PushIntoBucket(store: seq<Message>, room: Room, groups: seq<Group>, m: Message)
    requires m.to == room && IsGrouping(store, room, groups) && m.date in Ids(groups)
    requires forall id :: Matching(store + [m], room, id)
              == if id == m.date then Matching(store, room, id) + [m] else Matching(store, room, id)
    ensures IsGrouping(store + [m], room, Push(groups, m))
  {
    var r := Push(groups, m);
    assert |r| == |groups|;
    assert forall i :: 0 <= i < |r| ==> r[i].id == groups[i].id;
    forall g | g in r
      ensures g.messagesByDate == Matching(store + [m], room, g.id) && g.messagesByDate != []
    {
      var i :| 0 <= i < |r| && r[i] == g;
      assert groups[i] in groups;
    }
    forall m' | m' in store + [m] && m'.to == room
      ensures m'.date in Ids(r)
    {
      var g :| g in groups && g.id == m'.date;
      var i :| 0 <= i < |groups| && groups[i] == g;
      assert r[i] in r;
    }
  }

  /** With distinct ids there are as many ids as buckets. */
  lemma {:induction false} DistinctIdsCount(groups: seq<Group>)
    requires DistinctIds(groups)
    ensures |Ids(groups)| == |groups|
  {
    if |groups| > 0 {
      var front := groups[..|groups| - 1];
      var last := groups[|groups| - 1];
      assert groups == front + [last];
      DistinctIdsCount(front);
      assert Ids(groups) == Ids(front) + {last.id};
      assert last.id !in Ids(front);
    }
  }

  /** Buckets with distinct ids that are exactly `a` and `b` are the two
      of them, in one order or the other. */
  lemma TwoBuckets(groups: seq<Group>, a: Group, b: Group)
    requires DistinctIds(groups) && a.id != b.id
    requires forall g :: g in groups <==> g == a || g == b
    ensures groups == [a, b] || groups == [b, a]
  {
    assert Ids(groups) == {a.id, b.id} by {
      assert a in groups && b in groups;
      forall id | id in Ids(groups)
        ensures id == a.id || id == b.id
      {
        var g :| g in groups && g.id == id;
      }
    }
    DistinctIdsCount(groups);
    assert groups == [groups[0], groups[1]];
    assert groups[0] in groups && groups[1] in groups;
  }

  /** The aggregate: `$match` then `$group`, folding over the log in store
      order. Buckets come out in order of their first message. */
  function GroupByDate(store: seq<Message>, room: Room): (groups: seq<Group>)
    ensures IsGrouping(store, room, groups)
  {
    if |store| == 0 then []
    else
      var prefix := store[..|store| - 1];
      var m := store[|store| - 1];
      assert store == prefix + [m];
      var groups := GroupByDate(prefix, room);
      if m.to == room then
        PushKeepsGrouping(prefix, room, groups, m);
        Push(groups, m)
      else
        assert forall id :: Matching(store, room, id) == Matching(prefix, room, id);
        groups
  }

  /** Every message of the room is in exactly one bucket, the one named by
      its date; messages of other rooms are in none. */
  lemma Placement(store: seq<Message>, room: Room, groups: seq<Group>, m: Message)
    requires IsGrouping(store, room, groups) && m in store
    ensures forall i :: 0 <= i < |groups| ==> (m in groups[i].messagesByDate <==> m.to == room && groups[i].id == m.date)
    ensures m.to == room ==> exists i :: 0 <= i < |groups| && m in groups[i].messagesByDate
    ensures forall i, j :: 0 <= i < |groups| && 0 <= j < |groups| && m in groups[i].messagesByDate && m in groups[j].messagesByDate ==> i == j
  {
    forall i | 0 <= i < |groups|
      ensures m in groups[i].messagesByDate <==> m.to == room && groups[i].id == m.date
    {
      assert groups[i] in groups;
    }
    if m.to == room {
      assert m.date in Ids(groups);
      var g :| g in groups && g.id == m.date;
      var i :| 0 <= i < |groups| && groups[i] == g;
      assert m in groups[i].messagesByDate;
    }
  }

  /** A room has no buckets exactly when it has no messages. */
  lemma EmptyRoom(store: seq<Message>, room: Room, groups: seq<Group>)
    requires IsGrouping(store, room, groups)
    ensures groups == [] <==> forall m :: m in store ==> m.to != room
  {
    if groups != [] {
      var g := groups[0];
      assert g in groups;
      var m := g.messagesByDate[0];
      assert m in Matching(store, room, g.id);
    }
  }

  /** Two results of the aggregate hold the same buckets: they differ at
      most in the order the buckets come out in. */
  lemma GroupingsAgree(store: seq<Message>, room: Room, a: seq<Group>, b: seq<Group>)
    requires IsGrouping(store, room, a) && IsGrouping(store, room, b)
    ensures forall g :: g in a <==> g in b
  {
    forall g | g in a
      ensures g in b
    {
      OneSide(store, room, a, b, g);
    }
    forall g | g in b
      ensures g in a
    {
      OneSide(store, room, b, a, g);
    }
  }

  lemma OneSide(store: seq<Message>, room: Room, a: seq<Group>, b: seq<Group>, g: Group)
    requires IsGrouping(store, room, a) && IsGrouping(store, room, b) && g in a
    ensures g in b
  {
    var m := g.messagesByDate[0];
    assert m in Matching(store, room, g.id);
    assert g.id in Ids(b);
    var h :| h in b && h.id == g.id;
    assert h.messagesByDate == g.messagesByDate;
  }
}
